=== FILE: README.md ===
# The "++" completion engine of the blog post editor, in Dafny

This project models the part of the blog editor that writes with an AI: the
author types `++` in the post editor (or in one of its slides), the two
characters are deleted, a prompt made of the post's title, description and
text goes to the generation endpoint, and the streamed completion is merged
into the document at the caret. Because the stream delivers cumulative
snapshots, a `prev` watermark remembers how much is already in the document, so
only the new part is inserted each time. When the stream ends, the inserted text
is selected. Escape while loading deletes the completion and puts `++` back.
Cmd+Z only puts `++` back. A mouse-down stops the request and, if the author
confirms, starts a new one from the current text.

Around the engine the model covers:
- the pure helpers of the post editor: the autosave test, the slide-list
  edits, the escaping of imported text, and the default SEO description;
- the slug form: `makeSlug`, the slug that is shown, the auto-submit test and
  the form action with its empty-slug guard.

Layout:
- `common.dfy`: nullable values (`Option`) and JavaScript truthiness of a
  nullable string.
- `tiptap.dfy`: the editor commands the components call, over a flat text with
  a selection. Each command is a function on a `Doc` value, and the
  `TextEditor` class changes its fields in place as the function says.
- `completion.dfy`: the engine. `EngineState` holds the document, the hook's
  `completion`, `isLoading`, the prompts sent so far and `prev`. Each step of
  the engine is a pure transition, and the properties are lemmas about the
  transitions. The `Engine` class holds the same state in fields, and each of
  its methods is proved to perform exactly its transition.
- `post_editor.dfy`: the post editor component (`Editor`) and its pure
  helpers.
- `slide_editor.dfy`: the per-slide copy of the engine (`SlideEditor`).
- `post_form.dfy`: the slug form (`Form`) and the slug functions.

Effects are methods that the caller runs in the order React would run them. The
debounced value, how a request settles and the answer to
`window.confirm` are parameters. The stream is a sequence of cumulative
snapshots.

Behaviour of the code that is easy to get wrong, and that the model keeps:
- only `<` and `{` are escaped; `>` and `/` are left alone
  (`PostEditor.EscapeExample`);
- autosave compares the debounced data with the current `post` prop, not with
  the last save, so an edit is saved again on every debounce until a refresh
  hands down the saved post (`PostEditor.AutosaveUntilRefreshed`);
- the slug effect runs again after every change of the slug, so a typed slug is
  put back to the title's slug (`PostForm.TypedSlugReverted`);
- the slug input is `required`, and `requestSubmit` checks it before the
  action runs: an auto-submit while the input is enabled and empty never
  reaches the action (`PostForm.UntitledSlugAsWritten`);
- Cmd+S saves without any comparison;
- a failed request does not remove the text already inserted; the error is
  only reported.

## Model

| member | source | states |
|---|---|---|
| Tiptap.TextBefore | components/editor/index.tsx:113-117 | the window has at most two characters, clamped at the start of the document, and is exactly the text just before the cursor |
| Tiptap.Delete | components/editor/index.tsx:119-122 | the deletion fails exactly when it would start before the document; otherwise [from, to) is cut out and the rest of the text is kept on both sides |
| Tiptap.Insert | components/editor/index.tsx:159 | an empty insertion changes nothing; otherwise the text replaces the selection and the caret lands right after it |
| Tiptap.Select | components/editor/index.tsx:143-146 | the text is unchanged; each end of the selection is kept when it lies in the document, becomes 0 below it and the document's length beyond it |
| Tiptap.TextEditor.DeleteRange | components/editor/index.tsx:119-122 | the editor's new document is the one `Delete` gives; on failure nothing changes |
| Tiptap.TextEditor.InsertContent | components/editor/index.tsx:174 | the editor's new document is the one `Insert` gives |
| Tiptap.TextEditor.SetTextSelection | components/editor/index.tsx:143-146 | the editor's new document is the one `Select` gives |
| Tiptap.TextEditor.SetContent | components/editor/index.tsx:266 | the document is replaced and the caret sits at its end |
| Completion.Prompt | components/editor/index.tsx:124-128 | the prompt starts with "Title: " and the title (null renders as "null"), ends with the document text, and has 25 characters of framing |
| Completion.ResumeText | components/editor/index.tsx:182-186 | the text used on resume is never empty, and it is the document text whenever that is non-empty |
| Completion.Diff | components/editor/index.tsx:157 | when the old watermark is a prefix of the snapshot, watermark plus diff is the snapshot; a shorter snapshot gives the empty diff |
| Completion.InsertedIsFinal | components/editor/index.tsx:155-160 | for snapshots that each extend the one before, the inserted diffs concatenate to exactly what the final completion adds to the watermark |
| Completion.ChunkBoundariesIrrelevant | components/editor/index.tsx:155-160 | two streams that reach the same completion insert the same text, however they are cut into snapshots |
| Completion.TriggerWindow | components/editor/index.tsx:112-118 | the window is "++" exactly when there are two characters before the cursor and both are '+' |
| Completion.TriggerDeletesMarker | components/editor/index.tsx:118-122 | firing deletes exactly the two characters before the cursor, moves the cursor back by two and changes no other part of the state |
| Completion.PatchAtCaret | components/editor/index.tsx:156-159 | one run of the effect inserts the diff at the caret, moves the caret after it and sets the watermark to the completion |
| Completion.PatchIdempotent | components/editor/index.tsx:156-159 | re-running the effect on an unchanged completion inserts nothing and changes nothing |
| Completion.StreamedAtCaret | components/editor/index.tsx:155-160 | while loading, the stream inserts the concatenated diffs at the caret, leaves the caret after them and ends with the watermark at the last snapshot |
| Completion.StreamInsertsFinal | components/editor/index.tsx:155-160 | for cumulative snapshots, the document ends with exactly the new part of the final completion at the original caret, with the caret after it |
| Completion.FinishSelectsCompletion | components/editor/index.tsx:142-146 | on finish the selection is [cursor - length of the completion, cursor), clamped at the start, and loading ends; when the completion sits just before the cursor, the selection is exactly the completion |
| Completion.EscapeRestoresMarker | components/editor/index.tsx:165-175 | Escape turns `A completion B` (caret after the completion) into `A ++ B` with the caret after the marker, and loading ends |
| Completion.EscapeBeforeStartKeepsDocument | components/editor/index.tsx:168-173 | when the completion is longer than the text before the caret, the deletion throws: loading ends and the document is left as it was |
| Completion.UndoOnlyInsertsMarker | components/editor/index.tsx:166-174 | Cmd+Z deletes nothing: it inserts "++" at the caret and ends loading |
| Completion.InterruptNeverWedges | components/editor/index.tsx:165-176 | Escape or Cmd+Z always ends loading; any other key changes nothing |
| Completion.PauseResumes | components/editor/index.tsx:177-188 | a mouse-down never touches the document, always stops the request, and starts a new one with the prompt built from the current text exactly when the user confirms |
| Completion.RollbackRestoresDocument | components/editor/index.tsx:112-175 | the whole cycle: `A ++ B` fires, the marker goes, two requests start, the stream leaves `A completion B`, and Escape gives back `A ++ B` with its caret exactly |
| Completion.Engine.TakeTrigger | components/editor/index.tsx:112-122 | reports whether the trigger fires and performs exactly the marker deletion when it does |
| Completion.Engine.Complete | components/editor/index.tsx:124-129 | a new request: the completion is emptied, loading starts and the prompt is recorded |
| Completion.Engine.Stop | components/editor/index.tsx:167 | loading ends and nothing else changes |
| Completion.Engine.Receive | components/editor/index.tsx:139-141 | a snapshot replaces the completion only while a request is running |
| Completion.Engine.ApplyPatch | components/editor/index.tsx:156-159 | performs exactly one run of the chunk-insertion effect |
| Completion.Engine.Stream | components/editor/index.tsx:155-160 | performs exactly the transition of receiving and patching each snapshot in order |
| Completion.Engine.Finish | components/editor/index.tsx:142-146 | performs exactly the finish transition |
| Completion.Engine.Interrupt | components/editor/index.tsx:165-175 | performs exactly the keydown transition |
| Completion.Engine.Pause | components/editor/index.tsx:177-188 | performs exactly the mousedown transition |
| PostEditor.AutosaveComparesFourFields | components/editor/index.tsx:74-83 | the skip test looks only at title, description, content and slides: it holds exactly when the data equals the post once `published` and `slug` are ignored |
| PostEditor.First170 | components/editor/index.tsx:41 | the default description is at most 170 characters and is a prefix of the content; it is the whole content when that is short, and empty when there is none |
| PostEditor.EscapeSpecial | components/editor/index.tsx:243-245 | the output is longer than the input by the number of '<' and '{', and never starts with one of them |
| PostEditor.EscapeCons | components/editor/index.tsx:243-245 | escaping goes character by character: a '<' or '{' gets a backslash in front, any other character is copied |
| PostEditor.EscapeKeepsPlainText | components/editor/index.tsx:243-245 | text without '<' and '{' is returned unchanged |
| PostEditor.EscapeMarksSpecials | components/editor/index.tsx:243-245 | every '<' and '{' in the output has a backslash just before it |
| PostEditor.EscapeRoundTrip | components/editor/index.tsx:243-245 | escaping loses nothing: removing the added backslashes gives back the input |
| PostEditor.EscapeExample | components/editor/index.tsx:243-245 | `</b>` becomes `\</b>` and `{x}` becomes `\{x}`: '/', '>' and '}' are left alone |
| PostEditor.EscapeAll | components/editor/index.tsx:247-249 | every slide is escaped, in order, and the list keeps its length |
| PostEditor.SpliceStart | components/editor/index.tsx:230 | the splice starts at the index when it is in range; a negative index counts from the end and is clamped at 0, an index past the end is clamped at the length |
| PostEditor.SlidesAfter | components/editor/index.tsx:218-234 | "add" appends the value; "update" writes only the indexed position, appends when the index is the length, and changes nothing for a negative index; "delete" removes the slide at the splice start and shifts the later ones left; any other action leaves the slides unchanged |
| PostEditor.Editor.constructor | components/editor/index.tsx:57-66 | the data starts as the post, the slides as the stored slides or the empty list, and the description box as the description or empty |
| PostEditor.Editor.OnUpdate | components/editor/index.tsx:111-136 | on a trigger the marker is deleted and two requests start: first the prompt, then the text after the deletion; otherwise only the content of the data changes, to the document text |
| PostEditor.Editor.InsertChunk | components/editor/index.tsx:156-160 | performs exactly one run of the chunk-insertion effect |
| PostEditor.Editor.OnFinish | components/editor/index.tsx:142-146 | performs exactly the finish transition |
| PostEditor.Editor.OnError | components/editor/index.tsx:148-150 | a failed request reports its message and ends loading; the document keeps what was inserted |
| PostEditor.Editor.OnKeyDown | components/editor/index.tsx:165-175 | performs exactly the keydown transition |
| PostEditor.Editor.OnMouseDown | components/editor/index.tsx:177-188 | performs exactly the mousedown transition, with the prompt built from the current title and description |
| PostEditor.Editor.ReceivePost | components/editor/index.tsx:25-29 | a new `post` prop replaces the old one; the edited data and the slides keep their values |
| PostEditor.Editor.Autosave | components/editor/index.tsx:74-89 | the debounced data is saved exactly when it differs from the current `post` prop in one of the four compared fields |
| PostEditor.Editor.SaveShortcut | components/editor/index.tsx:93-100 | Cmd+S saves the current data, with no comparison; any other key saves nothing |
| PostEditor.Editor.UpdateSlides | components/editor/index.tsx:218-234 | the slides become exactly `SlidesAfter` of the old slides |
| PostEditor.Editor.SyncSlides | components/editor/index.tsx:236-241 | the data's slides become the current slide list; nothing else in the data changes |
| PostEditor.Editor.SetSlideWithJsonAsWritten | components/editor/index.tsx:251-270 | as written: the data gets the escaped slides and content, and the document the escaped content, but the slide list gets the unescaped slides |
| PostEditor.Editor.SetSlideWithJson | components/editor/index.tsx:251-270 | corrected: the slide list gets the escaped slides too, as do the data and the document |
| PostEditor.Editor.DescriptionEffect | components/editor/index.tsx:38-46 | until the user edits it, and while the post has no description, the box shows the first 170 characters of the content; otherwise it is left alone |
| PostEditor.Editor.TextareaChange | components/editor/index.tsx:48-55 | the box and the data's description take the typed value, and the user-edit flag is set |
| PostEditor.MarkerStreamEscape | components/editor/index.tsx:111-175 | in the component, `A ++ B` fires, the stream leaves `A completion B`, and Escape gives back `A ++ B` |
| PostEditor.AutosaveUntilRefreshed | components/editor/index.tsx:74-89 | data that differs from the opened post is saved on every debounce, and no longer once a refresh hands down the saved post as the new prop; data equal to the post is never saved |
| PostEditor.ImportAsWrittenLosesEscaping | components/editor/index.tsx:236-270 | importing the slide `<b>` as written ends with `<b>` stored, not the escaped `\<b>` |
| PostEditor.ImportKeepsEscaping | components/editor/index.tsx:236-270 | with the corrected import, the stored slides and content are the escaped ones, whatever they are |
| SlideEditor.SlideEditor.OnUpdate | components/editor/editor-content/index.tsx:33-57 | on a trigger the marker is deleted and exactly one request starts, its prompt built from the text after the deletion; any other update changes nothing |
| SlideEditor.SlideEditor.InsertChunk | components/editor/editor-content/index.tsx:80-84 | performs exactly one run of the chunk-insertion effect |
| SlideEditor.SlideEditor.OnFinish | components/editor/editor-content/index.tsx:63-68 | performs exactly the finish transition |
| SlideEditor.SlideEditor.OnError | components/editor/editor-content/index.tsx:69-74 | every failed request is reported; it counts as a rate limit exactly when its message is the rate-limit message; loading ends |
| SlideEditor.SlideEditor.OnKeyDown | components/editor/editor-content/index.tsx:89-100 | performs exactly the keydown transition |
| SlideEditor.SlideEditor.OnMouseDown | components/editor/editor-content/index.tsx:101-111 | performs exactly the mousedown transition |
| SlideEditor.MarkerStreamFinish | components/editor/editor-content/index.tsx:33-84 | in a slide, `A ++ B` sends exactly one prompt, carrying `A B`; the stream leaves `A completion B`; on finish the selection is exactly the final completion |
| PostForm.LowerAscii | components/form/post-form.tsx:38 | an upper-case ASCII letter becomes its lower-case letter; every other character is kept |
| PostForm.SlugChar | components/form/post-form.tsx:38 | a slug character is never a space or an upper-case letter, and it is a hyphen exactly when the title character is a space or a hyphen |
| PostForm.SlugText | components/form/post-form.tsx:38 | the slug keeps the title's length and maps each character on its own |
| PostForm.MakeSlug | components/form/post-form.tsx:37-39 | a missing title has no slug; otherwise the slug has the title's length, no space and no upper-case letter, each space becomes '-', and every other character is lower-cased |
| PostForm.MakeSlugIdempotent | components/form/post-form.tsx:37-39 | the slug of a slug is the slug itself |
| PostForm.TitledSlugNonEmpty | components/form/post-form.tsx:37-41 | a non-empty title has a non-empty slug |
| PostForm.SlugFor | components/form/post-form.tsx:46-52 | the slug the effect is meant to pick: a non-empty title forces its own (non-empty) slug; otherwise the slug is the default value |
| PostForm.SettledSlugSkipsSubmit | components/form/post-form.tsx:46-60 | once the debounced slug equals the chosen slug, a titled post is never auto-submitted; an untitled post is submitted unless its default equals the slug of the title |
| PostForm.Form.constructor | components/form/post-form.tsx:40-41 | the form starts with the title's slug, the input showing it (empty when there is none), not loading, nothing sent and nothing reported |
| PostForm.Form.SlugEffectAsWritten | components/form/post-form.tsx:46-52 | as written, the default has already been deleted by rendering the input (lines 62-65 and 111): the slug is the title's slug, and undefined for an untitled post; an undefined slug leaves the input showing what it showed before |
| PostForm.Form.SlugEffect | components/form/post-form.tsx:46-52 | corrected: the slug becomes `SlugFor` of the title and the default, and the input shows it |
| PostForm.Form.AutoSubmitEffect | components/form/post-form.tsx:54-119 | a debounced slug equal to the title's slug changes nothing; any other starts loading and calls `requestSubmit` once, and the action runs exactly when the required input was disabled or not empty |
| PostForm.Form.Action | components/form/post-form.tsx:70-91 | an empty slug sends nothing, ends loading and reports "Slug required"; otherwise the slug is sent; a resolved result ends loading and is reported as its error or as "Successfully updated <name>!"; a rejected one leaves loading as it was and reports nothing |
| PostForm.Form.SlugInput | components/form/post-form.tsx:115-117 | the slug and the input become the typed value |
| PostForm.RetitleSubmitsNewSlug | components/form/post-form.tsx:41-91 | after renaming a post to a non-empty title, the stale debounced slug causes a submission exactly when the old and new slugs differ, and the new title's slug is what is sent |
| PostForm.UntitledSlugAsWritten | components/form/post-form.tsx:41-119 | as written, a post titled "" shows no slug; its auto-submit calls `requestSubmit` once, but the enabled, empty required input stops the submission, so the spinner stays on (and the input disabled), nothing is sent and nothing is reported |
| PostForm.UntitledSlugKeepsStored | components/form/post-form.tsx:41-91 | corrected, a post titled "" with a stored slug shows that slug, sends it, and reports only the server's answer |
| PostForm.TypedSlugReverted | components/form/post-form.tsx:46-117 | on a titled post, a typed slug is put back to the title's slug by the slug effect, so nothing is requested and nothing is sent |
| PostForm.RejectedSubmitKeepsSpinner | components/form/post-form.tsx:46-91 | a renamed post whose submission is rejected: the new slug is sent, the spinner stays on (and the input disabled) and nothing is reported |

## Left out

- JSON: the slides are a list of strings. `JSON.parse`, `JSON.stringify` and
  the fallback to an empty list on malformed data (components/editor/index.tsx:59-66)
  are not modelled.
- Rich text: the document is a flat string. The markdown serialisation is taken
  to be the plain text, so `getMarkdown()` and `getText()` give the same string.
  The block separator of `textBetween` and the rich-text nodes are not modelled.
- Effect timing: each effect is a method that the caller runs; the scenarios
  run them in the order React's dependency lists call for. `onUpdate` reading
  a stale `isLoading`, and `onUpdate` running again for its own deletion, are
  not modelled.
- Completion.Engine.Stop: `stop()` is taken to end loading at once. The
  `useCompletion` hook of the `ai` package, which is not part of this model,
  only aborts the request there; the aborted request settles later, and its
  cleanup clears the abort controller and sets loading to false. On the
  mouse-down path (components/editor/index.tsx:177-188) that cleanup can run
  after the resumed `complete` has started, so the resumed stream runs with
  `isLoading` false: the Escape, Cmd+Z and mouse-down listeners are detached,
  the trigger's `!isLoading` guard is open, and `stop()` can no longer abort
  it. `Completion.Paused` and `Completion.PauseResumes` state the order of
  the handler's own calls (loading is on after the resume exactly when the
  user confirms) and not this later settlement.
- Completion.Engine.Complete: the two requests started by the post editor's
  trigger are sequential in the model (the second replaces the first's state),
  so the interleaving of two live streams is not modelled.
- Completion.UndoOnlyInsertsMarker: the editor's own history keymap (Mod-z),
  which undoes alongside the Cmd+Z handler while the editor has focus, is
  outside the model; only the handler's insertion is stated.
- Completion.Engine: both components call `useCompletion` with the same id
  "novel" (components/editor/index.tsx:139-141,
  components/editor/editor-content/index.tsx:60-62), so every mounted editor
  shares one `completion` and one `isLoading`. The model gives each editor its
  own engine. It does not capture that a stream started in one editor is
  inserted by the chunk effect of every mounted editor, that the `!isLoading`
  guard of a trigger covers all editors at once, or that Escape and Cmd+Z run
  every editor's listener, each deleting the completion's length before its
  own caret and inserting "++".
- Hydration of the document from the stored content is not modelled.
- Timers: the debounced data and the debounced slug are parameters.
- Network: the generation endpoint, `updatePost` and the form's `handleSubmit`
  are not modelled. Prompts, saves and submitted slugs are recorded in fields,
  and a request's result is a parameter.
- Notifications and navigation: `va.track` and the session `update` are not
  modelled. Toasts are recorded as messages. A router refresh reaches the
  editor only as a new `post` prop (`PostEditor.Editor.ReceivePost`), which the
  caller supplies.
- Form validation: only the `required` check of the slug input is modelled;
  the call site sets no other constraint on it.
- The publish button and the post URL are not modelled.
- The image and logo uploader branch of the form is not modelled.
- PostForm.MakeSlug: only ASCII 'A' to 'Z' are lower-cased; Unicode
  lower-casing is not modelled.
- PostEditor.Editor.UpdateSlides: "update" at an index beyond the length of the
  list is excluded by its precondition, because JavaScript would leave holes in
  the array. No call site sends "update".
- PostEditor.SlidesAfter: excludes the same "update" beyond the end.
- Tiptap.TextEditor.SetContent: the caret is taken to land at the end of the
  new document, and the string is taken as plain text. Tiptap parses a string
  given to `setContent` as HTML, and the editor's markdown extension
  (components/editor/index.tsx:129) parses it as markdown first, so markup in
  the content becomes nodes and the backslashes `EscapeSpecial` adds can be
  consumed. What `SetSlideWithJsonAsWritten` and `SetSlideWithJson` state about
  the document holding the escaped content holds only for content that parses
  to itself.
- Tiptap.Insert: the string is inserted character for character. Tiptap's
  `insertContent` parses a string as HTML, and as markdown with the editor's
  markdown extension, so a chunk holding `<`, `&`, `**` or a backslash is not
  inserted as its own characters, and a markup token split across two chunks
  is rendered differently from the same token in one chunk. Rich-text
  positions also count node boundaries (the first character sits at position
  1), so Escape's deletion of as many positions as the completion has
  characters can remove a different span, and the deletion that throws in
  `Completion.EscapeBeforeStartKeepsDocument` starts at a shifted bound. The
  results of `Completion.StreamInsertsFinal`,
  `Completion.ChunkBoundariesIrrelevant`, `Completion.RollbackRestoresDocument`
  and `Completion.EscapeRestoresMarker` hold only for completions that parse to
  themselves in a flat document.
- SlideEditor.SlideEditor: the post's title and description are fixed when the
  slide editor is created; later edits by the parent are not modelled.
- The `editor?` checks: the editor is taken to always exist.
- Strings are sequences of Unicode characters. JavaScript counts lengths and
  slices in UTF-16 code units, so the two agree only on text inside the Basic
  Multilingual Plane.
- PostEditor.First170: counts characters, where `substr(0, 170)` counts UTF-16
  code units. For content with characters outside the Basic Multilingual Plane
  (emoji, say) the model keeps more characters, and it never splits a
  surrogate pair as `substr` can.
- PostEditor.Editor.DescriptionEffect: inherits the character count of
  `First170`.

## Findings

| source | as written | input that shows it | evidently intended | confidence | as-written member | corrected member |
|---|---|---|---|---|---|---|
| components/editor/index.tsx:251-270 | `setSlideWithJson` stores the escaped slides in the data, then sets the slide list to the unescaped `newSlides`. The slides effect at lines 236-241 then copies that list over the data's slides, so the escaping of the slides is lost. | importing the slides `["<b>"]` stores `["<b>"]` instead of `["\<b>"]` | the slide list is set to the escaped slides, so the stored slides stay escaped | not executed | PostEditor.ImportAsWrittenLosesEscaping | PostEditor.ImportKeepsEscaping |
| components/form/post-form.tsx:46-52 | Rendering the input runs `deleteDefaultValue(inputAttrs)` (lines 62-65 and 111), which deletes `defaultValue` from the same object the slug effect reads after the render. An untitled post's slug therefore becomes undefined. | a post titled `""` with stored slug `my-post`: the slug becomes undefined and the input stays empty; the debounced undefined differs from `makeSlug("")`, so the spinner starts and `requestSubmit` is called, but the empty, still enabled required input stops the submission; the spinner never stops and the input stays disabled | an untitled post shows its stored slug and keeps it | not executed | PostForm.UntitledSlugAsWritten | PostForm.UntitledSlugKeepsStored |

=== FILE: common.dfy ===
/** Values shared by the editor components: JavaScript's nullable strings and their truthiness. */
module Common {

  /** A value that may be `null` or `undefined` in the source. */
  datatype Option<+T> = None | Some(value: T)
  {
    function GetOr(default: T): T
    {
      match this
      case Some(v) => v
      case None => default
    }
  }

  /** `!!s` for a nullable string: neither null nor the empty string. */
  predicate Truthy(s: Option<string>)
  {
    s.Some? && s.value != ""
  }
}

=== FILE: completion.dfy ===
/**
 * The "++" completion engine shared by the post editor and the slide editor:
 * the editor document, the state of the completion hook (the text streamed so
 * far, whether a request is running, the prompts sent) and the `prev` ref that
 * remembers how much of the completion is already in the document.
 *
 * The engine is a class whose methods change the document step by step; each
 * method is specified by a pure transition on `EngineState`, and the
 * properties of the engine are lemmas about those transitions.
 */
module Completion {
  import opened Common
  import opened Tiptap

  /** The marker the user types to ask for a completion. */
  const Marker: string := "++"

  /** How a template literal renders a field that may be null. */
  function Show(v: Option<string>): string
  {
    match v
    case None => "null"
    case Some(s) => s
  }

  /** The prompt both editors send: title, description, then the document text. */
  function Prompt(title: Option<string>, description: Option<string>, text: string): (r: string)
    ensures |r| == 25 + |Show(title)| + |Show(description)| + |text|
    ensures r[..7] == "Title: " && r[7..7 + |Show(title)|] == Show(title)
    ensures r[|r| - |text|..] == text
  {
    "Title: " + Show(title) + "\n Description: " + Show(description) + "\n\n " + text
  }

  /** `editor?.getText() || " "`: the text of the document, or a blank when it is empty. */
  function ResumeText(text: string): (r: string)
    ensures r != []
    ensures text != [] ==> r == text
  {
    if text == [] then " " else text
  }

  // ---------------------------------------------------------------------------
  // The watermark: cumulative snapshots become insertions
  // ---------------------------------------------------------------------------

  /** `completion.slice(prev.length)`: what the new snapshot adds to the text already
      inserted. JavaScript's slice gives the empty string when `prev` is the longer. */
  function Diff(prev: string, completion: string): (r: string)
    ensures prev <= completion ==> prev + r == completion
    ensures |completion| <= |prev| ==> r == []
    ensures |r| <= |completion|
  {
    if |prev| <= |completion| then completion[|prev|..] else []
  }

  /** Each snapshot extends the one before it, starting from `prev`. */
  predicate Chain(prev: string, snapshots: seq<string>)
    decreases |snapshots|
  {
    snapshots == [] || (prev <= snapshots[0] && Chain(snapshots[0], snapshots[1..]))
  }

  /** The completion after the last snapshot. */
  function Final(prev: string, snapshots: seq<string>): string
  {
    if snapshots == [] then prev else snapshots[|snapshots| - 1]
  }

  /** The diffs inserted one after the other as the snapshots arrive. */
  function Inserted(prev: string, snapshots: seq<string>): string
    decreases |snapshots|
  {
    if snapshots == [] then [] else Diff(prev, snapshots[0]) + Inserted(snapshots[0], snapshots[1..])
  }

  lemma FinalOfTail(prev: string, snapshots: seq<string>)
    requires snapshots != []
    ensures Final(snapshots[0], snapshots[1..]) == Final(prev, snapshots)
  {
  }

  /** However the stream is cut into snapshots, the diffs add up to the final completion. */
  lemma {:induction false} InsertedIsFinal(prev: string, snapshots: seq<string>)
    requires Chain(prev, snapshots)
    ensures prev <= Final(prev, snapshots)
    ensures prev + Inserted(prev, snapshots) == Final(prev, snapshots)
    decreases |snapshots|
  {
    if snapshots != [] {
      var head, tail := snapshots[0], snapshots[1..];
      InsertedIsFinal(head, tail);
      FinalOfTail(prev, snapshots);
      calc {
        prev + Inserted(prev, snapshots);
        prev + (Diff(prev, head) + Inserted(head, tail));
        (prev + Diff(prev, head)) + Inserted(head, tail);
        head + Inserted(head, tail);
      }
    }
  }

  /** Two streams that reach the same completion insert the same text. */
  lemma ChunkBoundariesIrrelevant(prev: string, s1: seq<string>, s2: seq<string>)
    requires Chain(prev, s1) && Chain(prev, s2)
    requires Final(prev, s1) == Final(prev, s2)
    ensures Inserted(prev, s1) == Inserted(prev, s2)
  {
    InsertedIsFinal(prev, s1);
    InsertedIsFinal(prev, s2);
    assert Inserted(prev, s1) == (prev + Inserted(prev, s1))[|prev|..];
    assert Inserted(prev, s2) == (prev + Inserted(prev, s2))[|prev|..];
  }

  // ---------------------------------------------------------------------------
  // The engine's state and its transitions
  // ---------------------------------------------------------------------------

  datatype EngineState = EngineState(
    doc: Doc,              // the editor document and its selection
    completion: string,    // the hook's `completion`: everything streamed so far
    isLoading: bool,       // the hook's `isLoading`: a request is running
    prompts: seq<string>,  // every prompt handed to `complete`, in order
    prev: string)          // the `prev` ref: the completion already inserted
  {
    predicate Valid()
    {
      doc.Valid()
    }
  }

  /** The trigger condition of `onUpdate`: the two characters before the cursor are the
      marker and no request is running. */
  predicate Fires(s: EngineState)
    requires s.Valid()
  {
    TextBefore(s.doc.text, s.doc.selFrom, 2) == Marker && !s.isLoading
  }

  /** The marker before the cursor deleted. */
  function TriggerDeleted(s: EngineState): (r: EngineState)
    requires s.Valid() && Fires(s)
    ensures r.Valid()
  {
    var c := s.doc.selFrom;
    s.(doc := Delete(s.doc, c - 2, c).value)
  }

  /** `complete(prompt)`: a new request; the hook empties `completion` first. */
  function Started(s: EngineState, prompt: string): EngineState
  {
    s.(completion := [], isLoading := true, prompts := s.prompts + [prompt])
  }

  /** `stop()`, or the end of a request: the hook is no longer loading. */
  function Stopped(s: EngineState): EngineState
  {
    s.(isLoading := false)
  }

  /** A snapshot from the running stream; nothing arrives once the request is over. */
  function Received(s: EngineState, snapshot: string): EngineState
  {
    if s.isLoading then s.(completion := snapshot) else s
  }

  /** The chunk-insertion effect: insert the diff, then move the watermark. */
  function Patched(s: EngineState): (r: EngineState)
    requires s.Valid()
    ensures r.Valid()
  {
    s.(doc := Insert(s.doc, Diff(s.prev, s.completion)), prev := s.completion)
  }

  /** Each snapshot received and then patched in, in arrival order. */
  function Streamed(s: EngineState, snapshots: seq<string>): (r: EngineState)
    requires s.Valid()
    ensures r.Valid()
    decreases |snapshots|
  {
    if snapshots == [] then s else Streamed(Patched(Received(s, snapshots[0])), snapshots[1..])
  }

  /** `onFinish`: select the last |completion| characters before the cursor; then the
      hook stops loading. Only a running request can finish. */
  function Finished(s: EngineState): (r: EngineState)
    requires s.Valid()
    ensures r.Valid()
  {
    if !s.isLoading then s
    else s.(doc := Select(s.doc, s.doc.selFrom - |s.completion|, s.doc.selFrom), isLoading := false)
  }

  /** The keys the interrupt listener reacts to: Escape, or Cmd+Z. */
  predicate IsInterrupt(key: string, meta: bool)
  {
    key == "Escape" || (meta && key == "z")
  }

  /** The keydown listener, attached only while loading: stop, and on Escape delete
      |completion| characters before the cursor; then put the marker back. A deletion
      that would start before the document throws, and the marker is not put back. */
  function Interrupted(s: EngineState, key: string, meta: bool): (r: EngineState)
    requires s.Valid()
    ensures r.Valid()
  {
    if !s.isLoading || !IsInterrupt(key, meta) then s
    else
      var t := Stopped(s);
      if key == "Escape" then
        match Delete(t.doc, t.doc.selFrom - |t.completion|, t.doc.selFrom)
        case None => t
        case Some(d) => t.(doc := Insert(d, Marker))
      else
        t.(doc := Insert(t.doc, Marker))
  }

  /** The mousedown listener, attached only while loading: stop, and if the user
      confirms, ask again with the current document as the text of the prompt. */
  function Paused(s: EngineState, confirmed: bool, title: Option<string>, description: Option<string>): EngineState
  {
    if !s.isLoading then s
    else if confirmed then Started(Stopped(s), Prompt(title, description, ResumeText(s.doc.text)))
    else Stopped(s)
  }

  // ---------------------------------------------------------------------------
  // Properties of the transitions
  // ---------------------------------------------------------------------------

  /** The window is the marker exactly when the two characters before the cursor are
      '+', which needs at least two characters before it. */
  lemma TriggerWindow(d: Doc)
    requires d.Valid()
    ensures TextBefore(d.text, d.selFrom, 2) == Marker
        <==> 2 <= d.selFrom && d.text[d.selFrom - 2] == '+' && d.text[d.selFrom - 1] == '+'
  {
    var w := TextBefore(d.text, d.selFrom, 2);
    if 2 <= d.selFrom {
      assert w == d.text[d.selFrom - 2..d.selFrom];
      assert w[0] == d.text[d.selFrom - 2] && w[1] == d.text[d.selFrom - 1];
    }
  }

  /** Firing deletes exactly the marker before the cursor and touches nothing else. */
  lemma TriggerDeletesMarker(s: EngineState)
    requires s.Valid() && Fires(s)
    ensures var c, r := s.doc.selFrom, TriggerDeleted(s);
      && 2 <= c
      && r.doc.text == s.doc.text[..c - 2] + s.doc.text[c..]
      && s.doc.text == r.doc.text[..c - 2] + Marker + r.doc.text[c - 2..]
      && r.doc.selFrom == c - 2
      && r == s.(doc := r.doc)
  {
    var c, r := s.doc.selFrom, TriggerDeleted(s);
    TriggerWindow(s.doc);
    assert s.doc.text[c - 2..c] == Marker;
    assert r.doc.text[..c - 2] == s.doc.text[..c - 2];
    assert r.doc.text[c - 2..] == s.doc.text[c..];
    calc {
      s.doc.text;
      s.doc.text[..c - 2] + s.doc.text[c - 2..c] + s.doc.text[c..];
      r.doc.text[..c - 2] + Marker + r.doc.text[c - 2..];
    }
  }

  /** One patch on a caret: the diff lands at the caret and the watermark catches up. */
  lemma PatchAtCaret(s: EngineState)
    requires s.Valid() && s.doc.Collapsed()
    ensures var c, r, d := s.doc.selFrom, Patched(s), Diff(s.prev, s.completion);
      r.doc == Doc(s.doc.text[..c] + d + s.doc.text[c..], c + |d|, c + |d|) && r.prev == s.completion
  {
    var c, d := s.doc.selFrom, Diff(s.prev, s.completion);
    if d == [] {
      assert s.doc.text[..c] + d + s.doc.text[c..] == s.doc.text;
    }
  }

  /** Re-running the effect on an unchanged completion inserts nothing. */
  lemma PatchIdempotent(s: EngineState)
    requires s.Valid() && s.prev == s.completion
    ensures Patched(s) == s
    ensures Patched(Patched(s)) == s
  {
  }

  /** While a request runs, streaming a caret-positioned document inserts the diffs, one
      after the other, at the caret, and leaves the watermark at the last snapshot. */
  lemma {:induction false} StreamedAtCaret(s: EngineState, snapshots: seq<string>)
    requires s.Valid() && s.isLoading && s.doc.Collapsed()
    ensures var c, r, ins := s.doc.selFrom, Streamed(s, snapshots), Inserted(s.prev, snapshots);
      && r.doc == Doc(s.doc.text[..c] + ins + s.doc.text[c..], c + |ins|, c + |ins|)
      && r.prev == Final(s.prev, snapshots)
      && r.completion == (if snapshots == [] then s.completion else Final(s.prev, snapshots))
      && r.isLoading && r.prompts == s.prompts
    decreases |snapshots|
  {
    if snapshots != [] {
      var c := s.doc.selFrom;
      var head, tail := snapshots[0], snapshots[1..];
      var s' := Patched(Received(s, head));
      var d := Diff(s.prev, head);
      PatchAtCaret(Received(s, head));
      assert s'.doc == Doc(s.doc.text[..c] + d + s.doc.text[c..], c + |d|, c + |d|);
      StreamedAtCaret(s', tail);
      FinalOfTail(s.prev, snapshots);
      var t' := s'.doc.text;
      var ins' := Inserted(head, tail);
      assert t'[..c + |d|] == s.doc.text[..c] + d;
      assert t'[c + |d|..] == s.doc.text[c..];
      assert t'[..c + |d|] + ins' + t'[c + |d|..] == s.doc.text[..c] + (d + ins') + s.doc.text[c..];
    }
  }

  /** The stream property: for cumulative snapshots, the document ends up with exactly the
      new part of the final completion at the caret, whatever the chunk boundaries. */
  lemma StreamInsertsFinal(s: EngineState, snapshots: seq<string>)
    requires s.Valid() && s.isLoading && s.doc.Collapsed()
    requires Chain(s.prev, snapshots)
    ensures var c, r, f := s.doc.selFrom, Streamed(s, snapshots), Final(s.prev, snapshots);
      && s.prev <= f
      && r.doc.text == s.doc.text[..c] + f[|s.prev|..] + s.doc.text[c..]
      && r.doc.selFrom == r.doc.selTo == c + |f| - |s.prev|
  {
    StreamedAtCaret(s, snapshots);
    InsertedIsFinal(s.prev, snapshots);
    var f := Final(s.prev, snapshots);
    assert Inserted(s.prev, snapshots) == (s.prev + Inserted(s.prev, snapshots))[|s.prev|..];
  }

  /** On finish the selection is [cursor - |completion|, cursor), clamped at the start;
      when the completion sits just before the cursor, that is exactly the completion. */
  lemma FinishSelectsCompletion(s: EngineState)
    requires s.Valid() && s.isLoading
    ensures var c, r := s.doc.selFrom, Finished(s);
      && !r.isLoading && r.doc.text == s.doc.text && r.doc.selTo == c
      && r.doc.selFrom == (if |s.completion| <= c then c - |s.completion| else 0)
    ensures var c, r := s.doc.selFrom, Finished(s);
      |s.completion| <= c && s.doc.text[c - |s.completion|..c] == s.completion
      ==> r.doc.text[r.doc.selFrom..r.doc.selTo] == s.completion
  {
  }

  /** Escape after streaming: `A completion B`, caret after the completion, becomes
      `A ++ B` with the caret after the marker, and the request is stopped. */
  lemma EscapeRestoresMarker(s: EngineState, a: string, b: string, meta: bool)
    requires s.Valid() && s.isLoading
    requires s.doc == Doc(a + s.completion + b, |a| + |s.completion|, |a| + |s.completion|)
    ensures var r := Interrupted(s, "Escape", meta);
      r.doc == Doc(a + Marker + b, |a| + 2, |a| + 2) && !r.isLoading
  {
    var t := Stopped(s);
    var n := |a| + |s.completion|;
    var d := Delete(t.doc, n - |s.completion|, n);
    assert d.Some?;
    assert d.value.text[..|a|] == a;
    assert d.value.text[|a|..] == b;
    assert d.value.text == a + b;
    assert d.value == Doc(a + b, |a|, |a|);
  }

  /** Escape with fewer characters before the caret than the completion: the deletion
      throws, so the request is stopped and the document is left as it was. */
  lemma EscapeBeforeStartKeepsDocument(s: EngineState, meta: bool)
    requires s.Valid() && s.isLoading && s.doc.selFrom < |s.completion|
    ensures var r := Interrupted(s, "Escape", meta);
      r.doc == s.doc && !r.isLoading
  {
  }

  /** Cmd+Z only puts the marker back: nothing is deleted. */
  lemma UndoOnlyInsertsMarker(s: EngineState)
    requires s.Valid() && s.isLoading && s.doc.Collapsed()
    ensures var c, r := s.doc.selFrom, Interrupted(s, "z", true);
      && r.doc == Doc(s.doc.text[..c] + Marker + s.doc.text[c..], c + 2, c + 2)
      && !r.isLoading && r.completion == s.completion
  {
  }

  /** A key the listener reacts to always ends the request; any other key changes nothing. */
  lemma InterruptNeverWedges(s: EngineState, key: string, meta: bool)
    requires s.Valid()
    ensures IsInterrupt(key, meta) ==> !Interrupted(s, key, meta).isLoading
    ensures !IsInterrupt(key, meta) ==> Interrupted(s, key, meta) == s
  {
  }

  /** A mouse-down stops the request; only a confirmation starts a new one, whose prompt
      carries the current document (or a blank). The document is never touched. */
  lemma PauseResumes(s: EngineState, confirmed: bool, title: Option<string>, description: Option<string>)
    requires s.Valid() && s.isLoading
    ensures var r := Paused(s, confirmed, title, description);
      && r.doc == s.doc
      && r.isLoading == confirmed
      && r.prompts == s.prompts + (if confirmed then [Prompt(title, description, ResumeText(s.doc.text))] else [])
      && (confirmed ==> r.completion == [])
  {
  }

  /** The whole round trip: `A ++ B` fires, the marker goes, the post editor's two
      `complete` calls start, the stream inserts its completion, and Escape restores
      `A ++ B` exactly, caret after the marker. */
  lemma RollbackRestoresDocument(s: EngineState, a: string, b: string, p1: string, p2: string, snapshots: seq<string>)
    requires s.Valid() && !s.isLoading
    requires s.doc == Doc(a + Marker + b, |a| + 2, |a| + 2)
    requires Chain([], snapshots)
    ensures Fires(s)
    ensures var s1 := TriggerDeleted(s);
      && s1.doc == Doc(a + b, |a|, |a|)
      && var s2 := Patched(Started(Started(s1, p1), p2));
      && s2.Valid() && s2.isLoading && s2.doc == s1.doc && s2.prev == []
      && var s3 := Streamed(s2, snapshots);
      && s3.doc.text == a + Final([], snapshots) + b
      && Interrupted(s3, "Escape", false).doc == s.doc
  {
    var n := |a|;
    assert s.doc.text[n..n + 2] == Marker;
    TriggerWindow(s.doc);
    TriggerDeletesMarker(s);
    var s1 := TriggerDeleted(s);
    assert s1.doc.text[..n] == a && s1.doc.text[n..] == b;
    assert s1.doc.text == a + b;
    var s2 := Patched(Started(Started(s1, p1), p2));
    assert s2.doc == s1.doc;
    var s3 := Streamed(s2, snapshots);
    var f := Final([], snapshots);
    StreamInsertsFinal(s2, snapshots);
    StreamedAtCaret(s2, snapshots);
    assert s3.doc.text == a + f + b;
    assert s3.completion == f;
    EscapeRestoresMarker(s3, a, b, false);
  }

  // ---------------------------------------------------------------------------
  // The engine object
  // ---------------------------------------------------------------------------

  class Engine {
    const doc: TextEditor
    var completion: string
    var isLoading: bool
    var prompts: seq<string>
    var prev: string

    function Model(): EngineState
      reads this, doc
    {
      EngineState(doc.Value(), completion, isLoading, prompts, prev)
    }

    ghost predicate Valid()
      reads this, doc
    {
      doc.Valid()
    }

    constructor (content: string, cursor: nat)
      requires cursor <= |content|
      ensures Valid() && fresh(doc)
      ensures Model() == EngineState(Doc(content, cursor, cursor), [], false, [], [])
    {
      doc := new TextEditor(content, cursor);
      completion, isLoading, prompts, prev := [], false, [], [];
    }

    /** The trigger test of `onUpdate`, with the marker deletion when it fires. */
    method TakeTrigger() returns (fired: bool)
      requires Valid()
      modifies doc
      ensures Valid()
      ensures fired == Fires(old(Model()))
      ensures Model() == if fired then TriggerDeleted(old(Model())) else old(Model())
    {
      var cursor := doc.selFrom;
      var lastTwo := TextBefore(doc.text, cursor, 2);
      fired := lastTwo == Marker && !isLoading;
      if fired {
        var ok := doc.DeleteRange(cursor - 2, cursor);
      }
    }

    method Complete(prompt: string)
      requires Valid()
      modifies this
      ensures Valid()
      ensures Model() == Started(old(Model()), prompt)
    {
      completion, isLoading, prompts := [], true, prompts + [prompt];
    }

    method Stop()
      requires Valid()
      modifies this
      ensures Valid()
      ensures Model() == Stopped(old(Model()))
    {
      isLoading := false;
    }

    method Receive(snapshot: string)
      requires Valid()
      modifies this
      ensures Valid()
      ensures Model() == Received(old(Model()), snapshot)
    {
      if isLoading {
        completion := snapshot;
      }
    }

    /** The chunk-insertion effect. */
    method ApplyPatch()
      requires Valid()
      modifies this, doc
      ensures Valid()
      ensures Model() == Patched(old(Model()))
    {
      var diff := Diff(prev, completion);
      prev := completion;
      doc.InsertContent(diff);
    }

    /** The stream fed in one snapshot per step, the effect running after each. */
    method Stream(snapshots: seq<string>)
      requires Valid()
      modifies this, doc
      ensures Valid()
      ensures Model() == Streamed(old(Model()), snapshots)
    {
      var i := 0;
      while i < |snapshots|
        invariant 0 <= i <= |snapshots|
        invariant Valid()
        invariant Streamed(Model(), snapshots[i..]) == Streamed(old(Model()), snapshots)
      {
        ghost var before := Model();
        Receive(snapshots[i]);
        ApplyPatch();
        assert snapshots[i..][0] == snapshots[i] && snapshots[i..][1..] == snapshots[i + 1..];
        assert Streamed(before, snapshots[i..]) == Streamed(Model(), snapshots[i + 1..]);
        i := i + 1;
      }
    }

    /** The end of the stream: `onFinish`, then the hook stops loading. */
    method Finish()
      requires Valid()
      modifies this, doc
      ensures Valid()
      ensures Model() == Finished(old(Model()))
    {
      if isLoading {
        var cursor := doc.selFrom;
        doc.SetTextSelection(cursor - |completion|, cursor);
        isLoading := false;
      }
    }

    method Interrupt(key: string, meta: bool)
      requires Valid()
      modifies this, doc
      ensures Valid()
      ensures Model() == Interrupted(old(Model()), key, meta)
    {
      if isLoading && IsInterrupt(key, meta) {
        Stop();
        var ok := true;
        if key == "Escape" {
          var cursor := doc.selFrom;
          ok := doc.DeleteRange(cursor - |completion|, cursor);
        }
        if ok {
          doc.InsertContent(Marker);
        }
      }
    }

    method Pause(confirmed: bool, title: Option<string>, description: Option<string>)
      requires Valid()
      modifies this
      ensures Valid()
      ensures Model() == Paused(old(Model()), confirmed, title, description)
    {
      if isLoading {
        Stop();
        if confirmed {
          Complete(Prompt(title, description, ResumeText(doc.text)));
        }
      }
    }
  }
}

=== FILE: post_editor.dfy ===
/**
 * The post editor: the main document with its "++" completion engine, the post
 * data it saves, the list of slides, the escaping applied to imported slides,
 * and the default for the SEO description.
 */
module PostEditor {
  import opened Common
  import opened Tiptap
  import opened Completion

  /** The fields of a post the editor reads and saves. `slides` holds the parsed list
      that the source keeps as a JSON string. */
  datatype PostData = PostData(
    title: Option<string>,
    description: Option<string>,
    content: Option<string>,
    slides: Option<seq<string>>,
    slug: Option<string>,
    published: bool)

  /** The autosave test: the debounced data agrees with the current `post` prop
      on title, description, content and slides. */
  predicate SameAsPost(d: PostData, post: PostData)
  {
    && d.title == post.title
    && d.description == post.description
    && d.content == post.content
    && d.slides == post.slides
  }

  /** Whether an autosave of `d` is skipped depends only on the four compared fields:
      a change to `published` or `slug` alone never causes a save, a change to any
      compared field always does. */
  lemma AutosaveComparesFourFields(d: PostData, post: PostData)
    ensures SameAsPost(d, post) <==> SameAsPost(d.(published := post.published, slug := post.slug), post)
    ensures SameAsPost(d, post) <==> d.(published := post.published, slug := post.slug) == post
  {
  }

  // ---------------------------------------------------------------------------
  // The SEO description default
  // ---------------------------------------------------------------------------

  /** `post?.content?.substr(0, 170) || ""`. */
  function First170(content: Option<string>): (r: string)
    ensures |r| <= 170
    ensures content.None? ==> r == []
    ensures content.Some? ==> r <= content.value
    ensures content.Some? && |content.value| <= 170 ==> r == content.value
    ensures content.Some? && 170 <= |content.value| ==> |r| == 170
  {
    match content
    case None => []
    case Some(c) => if |c| <= 170 then c else c[..170]
  }

  // ---------------------------------------------------------------------------
  // Escaping imported text
  // ---------------------------------------------------------------------------

  /** The characters that the import escapes. */
  predicate IsSpecial(c: char)
  {
    c == '<' || c == '{'
  }

  function CountSpecial(s: string): nat
    decreases |s|
  {
    if s == [] then 0 else (if IsSpecial(s[0]) then 1 else 0) + CountSpecial(s[1..])
  }

  /** `str.replace(/[<{]/g, "\\$&")`: a backslash before every '<' and '{'. The output is
      longer by the number of those characters and never starts with one of them. */
  function EscapeSpecial(s: string): (r: string)
    ensures |r| == |s| + CountSpecial(s)
    ensures r != [] ==> !IsSpecial(r[0])
    decreases |s|
  {
    if s == [] then []
    else (if IsSpecial(s[0]) then ['\\', s[0]] else [s[0]]) + EscapeSpecial(s[1..])
  }

  /** Escaping works one character at a time, from the front. */
  lemma EscapeCons(c: char, s: string)
    ensures EscapeSpecial([c] + s) == (if IsSpecial(c) then ['\\', c] else [c]) + EscapeSpecial(s)
  {
    assert ([c] + s)[1..] == s;
  }

  /** Text without '<' and '{' is left as it is. */
  lemma {:induction false} EscapeKeepsPlainText(s: string)
    requires forall i :: 0 <= i < |s| ==> !IsSpecial(s[i])
    ensures EscapeSpecial(s) == s
    decreases |s|
  {
    if s != [] {
      EscapeKeepsPlainText(s[1..]);
      EscapeCons(s[0], s[1..]);
      assert [s[0]] + s[1..] == s;
    }
  }

  /** Every '<' and '{' of `r` has a backslash just before it. */
  predicate SpecialsMarked(r: string)
  {
    forall i :: 0 <= i < |r| && IsSpecial(r[i]) ==> 0 < i && r[i - 1] == '\\'
  }

  /** Every '<' and '{' of the output has a backslash just before it. */
  lemma {:induction false} EscapeMarksSpecials(s: string)
    ensures SpecialsMarked(EscapeSpecial(s))
    decreases |s|
  {
    if s != [] {
      var rest := EscapeSpecial(s[1..]);
      EscapeMarksSpecials(s[1..]);
      assert SpecialsMarked(rest);
      var p: string := if IsSpecial(s[0]) then ['\\', s[0]] else [s[0]];
      var r := p + rest;
      assert r == EscapeSpecial(s);
      forall i | 0 <= i < |r| && IsSpecial(r[i])
        ensures 0 < i && r[i - 1] == '\\'
      {
        if i < |p| {
          assert r[i] == p[i] && r[0] == p[0];
        } else {
          assert r[i] == rest[i - |p|] && r[i - 1] == (p + rest)[i - 1];
        }
      }
    }
  }

  /** Drops the backslash in front of each '<' and '{': the inverse of the escaping. */
  function Unescape(r: string): string
    decreases |r|
  {
    if r == [] then []
    else if 2 <= |r| && r[0] == '\\' && IsSpecial(r[1]) then [r[1]] + Unescape(r[2..])
    else [r[0]] + Unescape(r[1..])
  }

  /** Escaping loses nothing: unescaping gives back the original text. */
  lemma {:induction false} EscapeRoundTrip(s: string)
    ensures Unescape(EscapeSpecial(s)) == s
    decreases |s|
  {
    if s != [] {
      var rest := EscapeSpecial(s[1..]);
      EscapeRoundTrip(s[1..]);
      if IsSpecial(s[0]) {
        var r := ['\\', s[0]] + rest;
        assert r[2..] == rest;
      } else {
        var r := [s[0]] + rest;
        assert r[1..] == rest;
        assert 2 <= |r| ==> r[1] == rest[0];
      }
    }
  }

  /** Only '<' and '{' are escaped: a closing tag keeps its '/' and '>', a closing
      brace stays as it is. */
  lemma EscapeExample()
    ensures EscapeSpecial("</b>") == "\\</b>"
    ensures EscapeSpecial("{x}") == "\\{x}"
  {
    EscapeKeepsPlainText("/b>");
    EscapeCons('<', "/b>");
    assert "</b>" == ['<'] + "/b>";
    EscapeKeepsPlainText("x}");
    EscapeCons('{', "x}");
    assert "{x}" == ['{'] + "x}";
  }

  /** `escapeSpecialCharactersInArray`: every slide escaped, in order. */
  function EscapeAll(slides: seq<string>): (r: seq<string>)
    ensures |r| == |slides|
    ensures forall i :: 0 <= i < |slides| ==> r[i] == EscapeSpecial(slides[i])
  {
    seq(|slides|, i requires 0 <= i < |slides| => EscapeSpecial(slides[i]))
  }

  // ---------------------------------------------------------------------------
  // Editing the list of slides
  // ---------------------------------------------------------------------------

  /** Where `splice(index, 1)` starts: a negative index counts from the end. */
  function SpliceStart(index: int, len: nat): (r: nat)
    ensures r <= len
    ensures 0 <= index <= len ==> r == index
    ensures index < 0 && -index <= len ==> r == len + index
    ensures index < 0 && len < -index ==> r == 0
    ensures len < index ==> r == len
  {
    if index < 0 then (if len + index < 0 then 0 else len + index)
    else if index > len then len
    else index
  }

  /** The slides after `updateSlides(action, index, value)`. Writing at the length of
      the list appends; writing further out would leave holes, so callers stay within. */
  function SlidesAfter(action: string, index: int, value: string, slides: seq<string>): (r: seq<string>)
    requires action == "update" ==> index <= |slides|
    ensures action == "add" ==> |r| == |slides| + 1 && r[..|slides|] == slides && r[|slides|] == value
    ensures action == "update" ==> |r| == if index == |slides| then |slides| + 1 else |slides|
    ensures action == "update" && 0 <= index ==> r[index] == value
    ensures action == "update" ==> forall j :: 0 <= j < |slides| && j != index ==> r[j] == slides[j]
    ensures action == "update" && index == |slides| ==> r == slides + [value]
    ensures action == "update" && index < 0 ==> r == slides
    ensures action == "delete" && SpliceStart(index, |slides|) < |slides| ==>
      var k := SpliceStart(index, |slides|);
      && |r| == |slides| - 1
      && (forall j :: 0 <= j < k ==> r[j] == slides[j])
      && (forall j :: k <= j < |r| ==> r[j] == slides[j + 1])
    ensures action == "delete" && SpliceStart(index, |slides|) == |slides| ==> r == slides
    ensures action != "add" && action != "update" && action != "delete" ==> r == slides
  {
    if action == "add" then slides + [value]
    else if action == "update" then
      if index < 0 then slides
      else if index < |slides| then slides[index := value]
      else slides + [value]
    else if action == "delete" then
      var k := SpliceStart(index, |slides|);
      if k < |slides| then slides[..k] + slides[k + 1..] else slides
    else slides
  }

  // ---------------------------------------------------------------------------
  // The editor component
  // ---------------------------------------------------------------------------

  class Editor {
    var post: PostData          // the current `post` prop
    const engine: Engine        // the document and its completion engine
    var data: PostData          // the post as edited
    var slides: seq<string>
    var saves: seq<PostData>    // every payload handed to `updatePost`, in order
    var errors: seq<string>     // every error reported by a toast, in order
    var textareaValue: string   // the SEO description box
    var userEdits: bool

    ghost predicate Valid()
      reads this, engine, engine.doc
    {
      engine.Valid()
    }

    /** The component as first rendered, with `text` in the document. The stored slides
        are read when present, otherwise the list is empty. */
    constructor (post: PostData, text: string, cursor: nat)
      requires cursor <= |text|
      ensures Valid() && fresh(engine) && fresh(engine.doc)
      ensures engine.Model() == EngineState(Doc(text, cursor, cursor), [], false, [], [])
      ensures this.post == post && data == post && slides == post.slides.GetOr([])
      ensures saves == [] && errors == []
      ensures textareaValue == (if Truthy(post.description) then post.description.value else [])
      ensures !userEdits
    {
      this.post := post;
      engine := new Engine(text, cursor);
      data := post;
      slides := post.slides.GetOr([]);
      saves, errors := [], [];
      textareaValue := if Truthy(post.description) then post.description.value else [];
      userEdits := false;
    }

    /** `onUpdate`: on "++" with nothing loading, delete the marker and call `complete`
        twice, with the prompt and then with the document itself; otherwise only the
        content of the data follows the document. */
    method OnUpdate() returns (fired: bool)
      requires Valid()
      modifies this`data, engine, engine.doc
      ensures Valid()
      ensures fired == Fires(old(engine.Model()))
      ensures fired ==>
        var t := TriggerDeleted(old(engine.Model()));
        && engine.Model() == Started(Started(t, Prompt(data.title, data.description, t.doc.text)), t.doc.text)
        && data == old(data)
      ensures !fired ==>
        && engine.Model() == old(engine.Model())
        && data == old(data).(content := Some(engine.doc.text))
    {
      fired := engine.TakeTrigger();
      if fired {
        engine.Complete(Prompt(data.title, data.description, engine.doc.text));
        engine.Complete(engine.doc.text);
      } else {
        data := data.(content := Some(engine.doc.text));
      }
    }

    /** The effect that inserts the new part of the completion. */
    method InsertChunk()
      requires Valid()
      modifies engine, engine.doc
      ensures Valid()
      ensures engine.Model() == Patched(old(engine.Model()))
    {
      engine.ApplyPatch();
    }

    /** `onFinish`: select what was inserted; the request is over. */
    method OnFinish()
      requires Valid()
      modifies engine, engine.doc
      ensures Valid()
      ensures engine.Model() == Finished(old(engine.Model()))
    {
      engine.Finish();
    }

    /** `onError`: the failed request's message is reported and the request is over. */
    method OnError(message: string)
      requires Valid()
      modifies this`errors, engine
      ensures Valid()
      ensures errors == old(errors) + (if old(engine.isLoading) then [message] else [])
      ensures engine.Model() == Stopped(old(engine.Model()))
    {
      if engine.isLoading {
        errors := errors + [message];
        engine.Stop();
      }
    }

    /** The keydown listener: Escape or Cmd+Z while loading. */
    method OnKeyDown(key: string, meta: bool)
      requires Valid()
      modifies engine, engine.doc
      ensures Valid()
      ensures engine.Model() == Interrupted(old(engine.Model()), key, meta)
    {
      engine.Interrupt(key, meta);
    }

    /** The mousedown listener: stop, and resume only when the user confirms. */
    method OnMouseDown(confirmed: bool)
      requires Valid()
      modifies engine
      ensures Valid()
      ensures engine.Model() == Paused(old(engine.Model()), confirmed, data.title, data.description)
    {
      engine.Pause(confirmed, data.title, data.description);
    }

    /** A new `post` prop, as a router refresh after a successful slug submission hands
        down: only the prop changes; the edited data and the slide list are state and
        keep their values. */
    method ReceivePost(p: PostData)
      modifies this`post
      ensures post == p
    {
      post := p;
    }

    /** The autosave effect on the debounced data: saved unless it matches the current
        `post` prop (not the last save, so until the prop is refreshed an edit is saved
        again on every debounce). */
    method Autosave(debounced: PostData)
      modifies this`saves
      ensures saves == old(saves) + (if SameAsPost(debounced, post) then [] else [debounced])
    {
      if !SameAsPost(debounced, post) {
        saves := saves + [debounced];
      }
    }

    /** Cmd+S saves the current data at once, with no comparison. */
    method SaveShortcut(key: string, meta: bool)
      modifies this`saves
      ensures saves == old(saves) + (if meta && key == "s" then [data] else [])
    {
      if meta && key == "s" {
        saves := saves + [data];
      }
    }

    /** `updateSlides`: a copy of the list, changed by an index write or a splice. */
    method UpdateSlides(action: string, index: int, value: string)
      requires action == "update" ==> index <= |slides|
      modifies this`slides
      ensures slides == SlidesAfter(action, index, value, old(slides))
    {
      var updated := slides;
      if action == "add" {
        slides := slides + [value];
      } else if action == "update" {
        if 0 <= index && index < |updated| {
          updated := updated[index := value];
        } else if index == |updated| {
          updated := updated + [value];
        }
        slides := updated;
      } else if action == "delete" {
        var start := SpliceStart(index, |updated|);
        if start < |updated| {
          updated := updated[..start] + updated[start + 1..];
        }
        slides := updated;
      }
    }

    /** The effect that runs whenever `slides` changes: the data's slides follow the list. */
    method SyncSlides()
      modifies this`data
      ensures data == old(data).(slides := Some(slides))
    {
      data := data.(slides := Some(slides));
    }

    /** `setSlideWithJson` as written: the escaped slides and content go into the data
        and the escaped content into the document, but the list of slides is set to the
        slides as they came, unescaped. */
    method SetSlideWithJsonAsWritten(newSlides: seq<string>, content: string)
      requires Valid()
      modifies this`data, this`slides, engine.doc
      ensures Valid()
      ensures data == old(data).(slides := Some(EscapeAll(newSlides)), content := Some(EscapeSpecial(content)))
      ensures engine.doc.Value() == Doc(EscapeSpecial(content), |EscapeSpecial(content)|, |EscapeSpecial(content)|)
      ensures slides == newSlides
    {
      var escapedContent := EscapeSpecial(content);
      var escapedSlides := EscapeAll(newSlides);
      data := data.(slides := Some(escapedSlides), content := Some(escapedContent));
      engine.doc.SetContent(escapedContent);
      slides := newSlides;
    }

    /** `setSlideWithJson` corrected: the list of slides is set to the escaped slides too,
        so the slides effect that follows keeps them escaped. */
    method SetSlideWithJson(newSlides: seq<string>, content: string)
      requires Valid()
      modifies this`data, this`slides, engine.doc
      ensures Valid()
      ensures data == old(data).(slides := Some(EscapeAll(newSlides)), content := Some(EscapeSpecial(content)))
      ensures engine.doc.Value() == Doc(EscapeSpecial(content), |EscapeSpecial(content)|, |EscapeSpecial(content)|)
      ensures slides == EscapeAll(newSlides)
    {
      var escapedContent := EscapeSpecial(content);
      var escapedSlides := EscapeAll(newSlides);
      data := data.(slides := Some(escapedSlides), content := Some(escapedContent));
      engine.doc.SetContent(escapedContent);
      slides := escapedSlides;
    }

    /** The description effect: until the user edits the box, and while the post has no
        description, the box shows the first 170 characters of the post's content. */
    method DescriptionEffect()
      modifies this`textareaValue
      ensures textareaValue == if !userEdits && !Truthy(post.description) then First170(post.content) else old(textareaValue)
    {
      if !userEdits && !Truthy(post.description) {
        var first170 := First170(post.content);
        if textareaValue != first170 {
          textareaValue := first170;
        }
      }
    }

    /** Typing in the description box: the box, the data and the user-edit flag follow. */
    method TextareaChange(value: string)
      modifies this`textareaValue, this`data, this`userEdits
      ensures textareaValue == value && userEdits
      ensures data == old(data).(description := Some(value))
    {
      textareaValue := value;
      data := data.(description := Some(value));
      userEdits := true;
    }
  }

  // ---------------------------------------------------------------------------
  // Runs of the component
  // ---------------------------------------------------------------------------

  /** `A ++ B` typed into the editor: the stream writes its completion between A and B,
      and Escape brings back `A ++ B`. */
  method MarkerStreamEscape(post: PostData, a: string, b: string, snapshots: seq<string>)
    returns (fired: bool, streamed: string, restored: string)
    requires Chain([], snapshots)
    ensures fired
    ensures streamed == a + Final([], snapshots) + b
    ensures restored == a + Marker + b
  {
    var editor := new Editor(post, a + Marker + b, |a| + 2);
    ghost var s0 := editor.engine.Model();
    RollbackRestoresDocument(s0, a, b, Prompt(post.title, post.description, a + b), a + b, snapshots);
    TriggerDeletesMarker(s0);
    fired := editor.OnUpdate();
    editor.InsertChunk();
    editor.engine.Stream(snapshots);
    streamed := editor.engine.doc.text;
    editor.OnKeyDown("Escape", false);
    restored := editor.engine.doc.text;
  }

  /** Autosave follows the prop: data that differs from the opened post is saved, saved
      again on the next debounce, and no longer once a refresh hands down the saved post. */
  method AutosaveUntilRefreshed(post: PostData, d: PostData) returns (saves: seq<PostData>)
    ensures SameAsPost(d, post) ==> saves == []
    ensures !SameAsPost(d, post) ==> saves == [d, d]
  {
    var editor := new Editor(post, [], 0);
    editor.Autosave(d);
    editor.Autosave(d);
    editor.ReceivePost(d);
    editor.Autosave(d);
    saves := editor.saves;
  }

  /** Importing `<b>` as written: the slides effect that follows stores the slide
      unescaped. */
  method ImportAsWrittenLosesEscaping(post: PostData) returns (stored: Option<seq<string>>)
    ensures stored == Some(["<b>"])
    ensures stored != Some(EscapeAll(["<b>"]))
  {
    var editor := new Editor(post, [], 0);
    editor.SetSlideWithJsonAsWritten(["<b>"], []);
    editor.SyncSlides();
    stored := editor.data.slides;
    assert EscapeSpecial("<b>") == "\\<b>" by {
      EscapeKeepsPlainText("b>");
      EscapeCons('<', "b>");
      assert "<b>" == ['<'] + "b>";
    }
    assert EscapeAll(["<b>"])[0] != "<b>";
  }

  /** Importing with the corrected `setSlideWithJson`: after the slides effect the data
      holds every slide and the content escaped. */
  method ImportKeepsEscaping(post: PostData, newSlides: seq<string>, content: string)
    returns (stored: Option<seq<string>>, storedContent: Option<string>)
    ensures stored == Some(EscapeAll(newSlides))
    ensures storedContent == Some(EscapeSpecial(content))
  {
    var editor := new Editor(post, [], 0);
    editor.SetSlideWithJson(newSlides, content);
    editor.SyncSlides();
    stored, storedContent := editor.data.slides, editor.data.content;
  }
}

=== FILE: post_form.dfy ===
/**
 * The slug form beside the post editor: the slug derived from the post title,
 * the rule that picks the slug shown, the test that decides whether a changed
 * slug is submitted, and the form action with its empty-slug guard.
 */
module PostForm {
  import opened Common

  /** `toLowerCase` on one character, for the ASCII letters. */
  function LowerAscii(c: char): (r: char)
    ensures !('A' <= r <= 'Z')
    ensures 'A' <= c <= 'Z' ==> r as int == c as int + 32
    ensures !('A' <= c <= 'Z') ==> r == c
  {
    if 'A' <= c <= 'Z' then (c as int + 32) as char else c
  }

  /** One character of a slug: lower-cased, a space turned into a hyphen. */
  function SlugChar(c: char): (r: char)
    ensures r != ' ' && !('A' <= r <= 'Z')
    ensures r == '-' <==> (c == ' ' || c == '-')
  {
    if c == ' ' then '-' else LowerAscii(c)
  }

  /** `title.toLowerCase().replaceAll(" ", "-")`. */
  function SlugText(t: string): (r: string)
    ensures |r| == |t|
    ensures forall i :: 0 <= i < |t| ==> r[i] == SlugChar(t[i])
    decreases |t|
  {
    if t == [] then [] else [SlugChar(t[0])] + SlugText(t[1..])
  }

  /** `makeSlug`: a missing title has no slug. The slug has the title's length, no
      space and no upper-case letter, and every space of the title is a hyphen. */
  function MakeSlug(title: Option<string>): (r: Option<string>)
    ensures r.None? <==> title.None?
    ensures r.Some? ==> |r.value| == |title.value|
    ensures r.Some? ==> forall i :: 0 <= i < |r.value| ==> r.value[i] != ' ' && !('A' <= r.value[i] <= 'Z')
    ensures r.Some? ==> forall i :: 0 <= i < |r.value| ==> (title.value[i] == ' ' ==> r.value[i] == '-')
    ensures r.Some? ==> forall i :: 0 <= i < |r.value| ==> (title.value[i] != ' ' ==> r.value[i] == LowerAscii(title.value[i]))
  {
    match title
    case None => None
    case Some(t) => Some(SlugText(t))
  }

  /** A slug is its own slug. */
  lemma MakeSlugIdempotent(title: Option<string>)
    ensures MakeSlug(MakeSlug(title)) == MakeSlug(title)
  {
    if title.Some? {
      var s := MakeSlug(title).value;
      var s2 := MakeSlug(Some(s)).value;
      assert |s2| == |s|;
      forall i | 0 <= i < |s|
        ensures s2[i] == s[i]
      {
        assert s2[i] == SlugChar(s[i]);
      }
      assert s2 == s;
    }
  }

  /** The slug of a non-empty title is non-empty: it has the title's length. */
  lemma TitledSlugNonEmpty(title: Option<string>)
    requires Truthy(title)
    ensures Truthy(MakeSlug(title))
  {
  }

  /** The slug the slug effect is meant to show: a non-empty post title forces its slug;
      otherwise the slug is the default the form was given. */
  function SlugFor(postTitle: Option<string>, defaultValue: Option<string>): (r: Option<string>)
    ensures Truthy(postTitle) ==> Truthy(r) && r == MakeSlug(postTitle)
    ensures !Truthy(postTitle) ==> r == defaultValue
  {
    if Truthy(postTitle) then MakeSlug(postTitle) else defaultValue
  }

  /** The auto-submit test: a debounced slug that is the title's own slug is not sent. */
  predicate SkipAutoSubmit(debounced: Option<string>, postTitle: Option<string>)
  {
    debounced == MakeSlug(postTitle)
  }

  /** Once the debounced value has caught up with the slug effect, a titled post is never
      submitted again; an untitled one is submitted unless its default is the slug of
      the (missing or empty) title. */
  lemma SettledSlugSkipsSubmit(postTitle: Option<string>, defaultValue: Option<string>)
    ensures Truthy(postTitle) ==> SkipAutoSubmit(SlugFor(postTitle, defaultValue), postTitle)
    ensures !Truthy(postTitle) ==>
      (SkipAutoSubmit(SlugFor(postTitle, defaultValue), postTitle) <==> defaultValue == MakeSlug(postTitle))
    ensures postTitle.None? ==>
      (SkipAutoSubmit(SlugFor(postTitle, defaultValue), postTitle) <==> defaultValue.None?)
  {
  }

  /** A toast shown by the form. */
  datatype Notice = ErrorNotice(message: string) | SuccessNotice(message: string)

  /** How the promise of `handleSubmit` settles: resolved with an error message or
      none, or rejected. */
  datatype SubmitResult = Resolved(error: Option<string>) | Rejected

  class Form {
    const name: string              // `inputAttrs.name`, the field being updated
    var slug: Option<string>
    var box: string                 // what the slug input holds on the page
    var isLoading: bool
    var submitRequests: nat         // how many times the form was asked to submit
    var submitted: seq<string>      // every slug handed to `handleSubmit`, in order
    var notices: seq<Notice>        // every toast, in order

    /** `requestSubmit` checks the form first: the slug input is `required`, so while it
        is enabled (not loading) and empty, no submit event fires and the action does
        not run. A disabled input is not checked. */
    predicate BlocksSubmit()
      reads this
    {
      !isLoading && box == []
    }

    constructor (name: string, postTitle: Option<string>)
      ensures this.name == name && slug == MakeSlug(postTitle) && box == slug.GetOr([])
      ensures !isLoading && submitRequests == 0 && submitted == [] && notices == []
    {
      this.name := name;
      slug := MakeSlug(postTitle);
      box := MakeSlug(postTitle).GetOr([]);
      isLoading := false;
      submitRequests := 0;
      submitted, notices := [], [];
    }

    /** The slug effect as written. Rendering the input has already run
        `deleteDefaultValue` on the same `inputAttrs` object, so the effect reads an
        undefined default: an untitled post loses its slug. An undefined slug leaves
        the input uncontrolled, and it keeps what it last showed. */
    method SlugEffectAsWritten(postTitle: Option<string>)
      modifies this`slug, this`box
      ensures slug == SlugFor(postTitle, None)
      ensures !Truthy(postTitle) ==> slug.None?
      ensures box == slug.GetOr(old(box))
    {
      if Truthy(postTitle) {
        slug := MakeSlug(postTitle);
        box := slug.value;
      } else {
        slug := None;
      }
    }

    /** The slug effect corrected: the default is read before anything removes it. It
        runs again after every change of the slug, so a typed slug is put back to the
        chosen one. */
    method SlugEffect(postTitle: Option<string>, defaultValue: Option<string>)
      modifies this`slug, this`box
      ensures slug == SlugFor(postTitle, defaultValue)
      ensures box == slug.GetOr(old(box))
    {
      if Truthy(postTitle) {
        slug := MakeSlug(postTitle);
      } else {
        slug := defaultValue;
      }
      if slug.Some? {
        box := slug.value;
      }
    }

    /** The auto-submit effect on the debounced slug: unless it is the title's own slug,
        show the spinner and call `requestSubmit`. The page has not yet re-rendered with
        the spinner, so the validation sees the input as it was; `submits` says whether
        the submit event fires and the action runs. */
    method AutoSubmitEffect(debounced: Option<string>, postTitle: Option<string>) returns (submits: bool)
      modifies this`isLoading, this`submitRequests
      ensures SkipAutoSubmit(debounced, postTitle) ==> isLoading == old(isLoading) && submitRequests == old(submitRequests)
      ensures !SkipAutoSubmit(debounced, postTitle) ==> isLoading && submitRequests == old(submitRequests) + 1
      ensures submits <==> !SkipAutoSubmit(debounced, postTitle) && !old(BlocksSubmit())
    {
      if debounced == MakeSlug(postTitle) {
        return false;
      }
      submits := !BlocksSubmit();
      isLoading := true;
      submitRequests := submitRequests + 1;
    }

    /** The form action, with `handleSubmit` settling as `result`: an empty slug is
        refused before anything is sent; otherwise the slug is sent and, once the promise
        resolves, the spinner stops and the result is reported as an error or a success.
        A rejected promise has no handler: the spinner stays and nothing is reported. */
    method Action(result: SubmitResult)
      modifies this`isLoading, this`submitted, this`notices
      ensures !Truthy(slug) ==> !isLoading && submitted == old(submitted) && notices == old(notices) + [ErrorNotice("Slug required")]
      ensures Truthy(slug) ==> submitted == old(submitted) + [slug.value]
      ensures Truthy(slug) && result.Resolved? ==> !isLoading
      ensures Truthy(slug) && result.Resolved? && Truthy(result.error) ==> notices == old(notices) + [ErrorNotice(result.error.value)]
      ensures Truthy(slug) && result.Resolved? && !Truthy(result.error) ==> notices == old(notices) + [SuccessNotice("Successfully updated " + name + "!")]
      ensures Truthy(slug) && result.Rejected? ==> isLoading == old(isLoading) && notices == old(notices)
    {
      if !Truthy(slug) {
        isLoading := false;
        notices := notices + [ErrorNotice("Slug required")];
        return;
      }
      submitted := submitted + [slug.value];
      match result
      case Rejected =>
      case Resolved(error) =>
        isLoading := false;
        if Truthy(error) {
          notices := notices + [ErrorNotice(error.value)];
        } else {
          notices := notices + [SuccessNotice("Successfully updated " + name + "!")];
        }
    }

    /** Typing in the slug box. */
    method SlugInput(value: string)
      modifies this`slug, this`box
      ensures slug == Some(value) && box == value
    {
      slug := Some(value);
      box := value;
    }
  }

  /** A post renamed from `oldTitle` to `newTitle`: the slug follows the new title, the
      still-debounced old slug sets off a submission exactly when the two slugs differ,
      and what is sent is the new title's slug. */
  method RetitleSubmitsNewSlug(name: string, oldTitle: Option<string>, newTitle: Option<string>,
                               defaultValue: Option<string>, result: SubmitResult)
    returns (requested: bool, sent: seq<string>)
    requires Truthy(newTitle)
    ensures requested <==> MakeSlug(oldTitle) != MakeSlug(newTitle)
    ensures requested ==> sent == [MakeSlug(newTitle).value]
    ensures !requested ==> sent == []
  {
    var form := new Form(name, oldTitle);
    form.SlugEffect(newTitle, defaultValue);
    var submits := form.AutoSubmitEffect(MakeSlug(oldTitle), newTitle);
    requested := form.submitRequests == 1;
    if submits {
      form.Action(result);
    }
    sent := form.submitted;
  }

  /** A post titled "" as written. On mount the slug effect drops the stored slug and
      the debounced slug is still the title's own, so nothing happens. Once the debounced
      undefined arrives, the spinner starts, but the required input is still enabled and
      empty: the submission never happens. The spinner then stays, and the input stays
      disabled, with nothing sent and nothing reported. */
  method UntitledSlugAsWritten(name: string)
    returns (shown: Option<string>, requested: nat, submits: bool, loading: bool, sent: seq<string>, notices: seq<Notice>)
    ensures shown == None
    ensures requested == 1 && !submits
    ensures loading
    ensures sent == []
    ensures notices == []
  {
    var title := Some("");
    var form := new Form(name, title);
    form.SlugEffectAsWritten(title);
    submits := form.AutoSubmitEffect(MakeSlug(title), title);
    shown := form.slug;
    submits := form.AutoSubmitEffect(form.slug, title);
    requested := form.submitRequests;
    loading, sent, notices := form.isLoading, form.submitted, form.notices;
  }

  /** The same post with the corrected slug effect: the stored slug is shown, and the
      submission it sets off sends that slug and reports only the server's answer. */
  method UntitledSlugKeepsStored(name: string, defaultValue: Option<string>, result: SubmitResult)
    returns (shown: Option<string>, sent: seq<string>, notices: seq<Notice>)
    requires Truthy(defaultValue)
    ensures shown == defaultValue
    ensures sent == [defaultValue.value]
    ensures result.Resolved? && !Truthy(result.error) ==> notices == [SuccessNotice("Successfully updated " + name + "!")]
    ensures result.Resolved? && Truthy(result.error) ==> notices == [ErrorNotice(result.error.value)]
    ensures result.Rejected? ==> notices == []
  {
    var title := Some("");
    var form := new Form(name, title);
    form.SlugEffect(title, defaultValue);
    var submits := form.AutoSubmitEffect(MakeSlug(title), title);
    shown := form.slug;
    submits := form.AutoSubmitEffect(form.slug, title);
    if submits {
      form.Action(result);
    }
    sent, notices := form.submitted, form.notices;
  }

  /** Typing in the slug box of a titled post: the slug effect runs again on the new slug
      and puts back the title's slug, so the debounced value settles on it and nothing is
      submitted. A typed slug never reaches the server. */
  method TypedSlugReverted(name: string, postTitle: Option<string>, typed: string)
    returns (shown: Option<string>, requested: nat, sent: seq<string>)
    requires Truthy(postTitle)
    ensures shown == MakeSlug(postTitle)
    ensures requested == 0
    ensures sent == []
  {
    var form := new Form(name, postTitle);
    form.SlugEffectAsWritten(postTitle);
    var submits := form.AutoSubmitEffect(MakeSlug(postTitle), postTitle);
    form.SlugInput(typed);
    form.SlugEffectAsWritten(postTitle);
    submits := form.AutoSubmitEffect(MakeSlug(postTitle), postTitle);
    shown, requested, sent := form.slug, form.submitRequests, form.submitted;
  }

  /** A renamed post whose submission is rejected: the spinner set by the auto-submit
      stays on, so the input stays disabled; the new slug was sent and nothing is
      reported. */
  method RejectedSubmitKeepsSpinner(name: string, oldTitle: Option<string>, newTitle: Option<string>,
                                    defaultValue: Option<string>)
    returns (loading: bool, sent: seq<string>, notices: seq<Notice>)
    requires Truthy(newTitle) && MakeSlug(oldTitle) != MakeSlug(newTitle)
    ensures loading
    ensures sent == [MakeSlug(newTitle).value]
    ensures notices == []
  {
    var form := new Form(name, oldTitle);
    form.SlugEffect(newTitle, defaultValue);
    var submits := form.AutoSubmitEffect(MakeSlug(oldTitle), newTitle);
    if submits {
      form.Action(Rejected);
    }
    loading, sent, notices := form.isLoading, form.submitted, form.notices;
  }
}

=== FILE: slide_editor.dfy ===
/**
 * The per-slide editor: a copy of the "++" completion engine over one slide's
 * document. It differs from the post editor in three ways: a trigger sends one
 * request, not two; an update that is not a trigger changes nothing; and a
 * failed request is also classified as a rate limit when its message says so.
 */
module SlideEditor {
  import opened Common
  import opened Tiptap
  import opened Completion

  /** The message the generation endpoint answers with once the daily limit is reached. */
  const RateLimitMessage: string := "You have reached your request limit for the day."

  class SlideEditor {
    const title: Option<string>        // the post's title, read for the prompt
    const description: Option<string>  // the post's description, read for the prompt
    const engine: Engine               // the slide's document and its completion engine
    var errors: seq<string>            // every error reported by a toast, in order
    var rateLimitHits: nat             // how many errors were counted as a rate limit

    ghost predicate Valid()
      reads this, engine, engine.doc
    {
      engine.Valid()
    }

    constructor (title: Option<string>, description: Option<string>, text: string, cursor: nat)
      requires cursor <= |text|
      ensures Valid() && fresh(engine) && fresh(engine.doc)
      ensures engine.Model() == EngineState(Doc(text, cursor, cursor), [], false, [], [])
      ensures this.title == title && this.description == description
      ensures errors == [] && rateLimitHits == 0
    {
      this.title, this.description := title, description;
      engine := new Engine(text, cursor);
      errors, rateLimitHits := [], 0;
    }

    /** `onUpdate`: on "++" with nothing loading, delete the marker and send one request
        whose prompt carries the document after the deletion; any other update changes
        nothing. */
    method OnUpdate() returns (fired: bool)
      requires Valid()
      modifies engine, engine.doc
      ensures Valid()
      ensures fired == Fires(old(engine.Model()))
      ensures fired ==>
        var t := TriggerDeleted(old(engine.Model()));
        engine.Model() == Started(t, Prompt(title, description, t.doc.text))
      ensures !fired ==> engine.Model() == old(engine.Model())
    {
      fired := engine.TakeTrigger();
      if fired {
        engine.Complete(Prompt(title, description, engine.doc.text));
      }
    }

    /** The effect that inserts the new part of the completion. */
    method InsertChunk()
      requires Valid()
      modifies engine, engine.doc
      ensures Valid()
      ensures engine.Model() == Patched(old(engine.Model()))
    {
      engine.ApplyPatch();
    }

    /** `onFinish`: select what was inserted; the request is over. */
    method OnFinish()
      requires Valid()
      modifies engine, engine.doc
      ensures Valid()
      ensures engine.Model() == Finished(old(engine.Model()))
    {
      engine.Finish();
    }

    /** `onError`: every failed request is reported, and counted as a rate limit exactly
        when its message is the rate-limit message; the request is over. */
    method OnError(message: string)
      requires Valid()
      modifies this`errors, this`rateLimitHits, engine
      ensures Valid()
      ensures errors == old(errors) + (if old(engine.isLoading) then [message] else [])
      ensures rateLimitHits == old(rateLimitHits) + (if old(engine.isLoading) && message == RateLimitMessage then 1 else 0)
      ensures engine.Model() == Stopped(old(engine.Model()))
    {
      if engine.isLoading {
        errors := errors + [message];
        if message == RateLimitMessage {
          rateLimitHits := rateLimitHits + 1;
        }
        engine.Stop();
      }
    }

    /** The keydown listener: Escape or Cmd+Z while loading. */
    method OnKeyDown(key: string, meta: bool)
      requires Valid()
      modifies engine, engine.doc
      ensures Valid()
      ensures engine.Model() == Interrupted(old(engine.Model()), key, meta)
    {
      engine.Interrupt(key, meta);
    }

    /** The mousedown listener: stop, and resume only when the user confirms. */
    method OnMouseDown(confirmed: bool)
      requires Valid()
      modifies engine
      ensures Valid()
      ensures engine.Model() == Paused(old(engine.Model()), confirmed, title, description)
    {
      engine.Pause(confirmed, title, description);
    }
  }

  /** `A ++ B` typed into a slide: exactly one request goes out, its prompt carrying
      `A B`; the stream writes its completion between A and B; and on finish the
      selection is exactly the final completion. */
  method MarkerStreamFinish(title: Option<string>, description: Option<string>, a: string, b: string, snapshots: seq<string>)
    returns (fired: bool, prompts: seq<string>, streamed: string, selected: string)
    requires Chain([], snapshots)
    ensures fired
    ensures prompts == [Prompt(title, description, a + b)]
    ensures streamed == a + Final([], snapshots) + b
    ensures selected == Final([], snapshots)
  {
    var editor := new SlideEditor(title, description, a + Marker + b, |a| + 2);
    ghost var s0 := editor.engine.Model();
    RollbackRestoresDocument(s0, a, b, Prompt(title, description, a + b), a + b, snapshots);
    fired := editor.OnUpdate();
    prompts := editor.engine.prompts;
    editor.InsertChunk();
    ghost var s2 := editor.engine.Model();
    assert s2.doc == Doc(a + b, |a|, |a|) && s2.prev == [] && s2.isLoading;
    StreamedAtCaret(s2, snapshots);
    StreamInsertsFinal(s2, snapshots);
    editor.engine.Stream(snapshots);
    ghost var s3 := editor.engine.Model();
    ghost var f := Final([], snapshots);
    assert s3.completion == f;
    streamed := editor.engine.doc.text;
    assert streamed == a + f + b;
    assert streamed[|a|..|a| + |f|] == f;
    FinishSelectsCompletion(s3);
    editor.OnFinish();
    selected := editor.engine.doc.text[editor.engine.doc.selFrom..editor.engine.doc.selTo];
  }
}

=== FILE: tiptap.dfy ===
/**
 * The slice of the Tiptap editor the completion engine drives, over a flat
 * document: its text and its selection [selFrom, selTo). `selFrom` is what the
 * components read as `editor.state.selection.from`, the cursor.
 */
module Tiptap {
  import opened Common

  datatype Doc = Doc(text: string, selFrom: nat, selTo: nat)
  {
    predicate Valid()
    {
      selFrom <= selTo <= |text|
    }

    /** The selection is a caret, not a highlighted range. */
    predicate Collapsed()
    {
      selFrom == selTo
    }
  }

  /** A position clamped into [0, hi], as `setTextSelection` does. */
  function Clamp(x: int, hi: nat): (r: nat)
    ensures r <= hi
    ensures 0 <= x <= hi ==> r == x
    ensures x < 0 ==> r == 0
    ensures hi < x ==> r == hi
  {
    if x < 0 then 0 else if x > hi then hi else x
  }

  /** Where a position ends up once [from, to) has been deleted. */
  function MapPos(p: nat, from: nat, to: nat): (r: nat)
    requires from <= to
    ensures p <= from ==> r == p
    ensures to <= p ==> r == p - (to - from)
    ensures r <= p
  {
    if p <= from then p else if p >= to then p - (to - from) else from
  }

  /** `text` with [from, to) replaced by `s`. */
  function Replace(text: string, from: nat, to: nat, s: string): (r: string)
    requires from <= to <= |text|
    ensures |r| == |text| - (to - from) + |s|
    ensures r[..from] == text[..from]
    ensures r[from..from + |s|] == s
    ensures r[from + |s|..] == text[to..]
  {
    text[..from] + s + text[to..]
  }

  /** `textBetween(cursor - n, cursor)`: the (at most n) characters before the cursor,
      the range clamped at the start of the document. */
  function TextBefore(text: string, cursor: nat, n: nat): (r: string)
    requires cursor <= |text|
    ensures |r| == if cursor < n then cursor else n
    ensures text[..cursor] == text[..cursor - |r|] + r
  {
    text[if cursor < n then 0 else cursor - n..cursor]
  }

  /** `commands.deleteRange({from, to})`. A `from` before the start of the document
      makes ProseMirror throw a RangeError: `None`, and nothing is deleted. */
  function Delete(d: Doc, from: int, to: nat): (r: Option<Doc>)
    requires d.Valid() && from <= to <= |d.text|
    ensures r.Some? <==> 0 <= from
    ensures r.Some? ==> r.value.Valid()
    ensures r.Some? ==> |r.value.text| == |d.text| - (to - from)
    ensures r.Some? ==> r.value.text[..from] == d.text[..from] && r.value.text[from..] == d.text[to..]
  {
    if from < 0 then None
    else Some(Doc(Replace(d.text, from, to, ""), MapPos(d.selFrom, from, to), MapPos(d.selTo, from, to)))
  }

  /** `commands.insertContent(s)`: the selection is replaced by `s` and the caret lands
      after it; an empty `s` is never dispatched, so it changes nothing. */
  function Insert(d: Doc, s: string): (r: Doc)
    requires d.Valid()
    ensures r.Valid()
    ensures s == [] ==> r == d
    ensures s != [] ==> r.Collapsed() && r.selFrom == d.selFrom + |s|
    ensures s != [] ==> r.text[..r.selFrom] == d.text[..d.selFrom] + s
    ensures s != [] ==> r.text[r.selFrom..] == d.text[d.selTo..]
  {
    if s == [] then d
    else Doc(Replace(d.text, d.selFrom, d.selTo, s), d.selFrom + |s|, d.selFrom + |s|)
  }

  /** `commands.setTextSelection({from, to})`, both ends clamped into the document. */
  function Select(d: Doc, from: int, to: int): (r: Doc)
    requires d.Valid() && from <= to
    ensures r.Valid() && r.text == d.text
    ensures 0 <= from <= |d.text| ==> r.selFrom == from
    ensures 0 <= to <= |d.text| ==> r.selTo == to
    ensures from < 0 ==> r.selFrom == 0
    ensures |d.text| < from ==> r.selFrom == |d.text|
    ensures to < 0 ==> r.selTo == 0
    ensures |d.text| < to ==> r.selTo == |d.text|
  {
    Doc(d.text, Clamp(from, |d.text|), Clamp(to, |d.text|))
  }

  /** The editor object: its document changes in place, command by command. */
  class TextEditor {
    var text: string
    var selFrom: nat
    var selTo: nat

    function Value(): Doc
      reads this
    {
      Doc(text, selFrom, selTo)
    }

    ghost predicate Valid()
      reads this
    {
      Value().Valid()
    }

    constructor (content: string, cursor: nat)
      requires cursor <= |content|
      ensures Valid() && Value() == Doc(content, cursor, cursor)
    {
      text, selFrom, selTo := content, cursor, cursor;
    }

    method DeleteRange(from: int, to: nat) returns (ok: bool)
      requires Valid() && from <= to <= |text|
      modifies this
      ensures Valid()
      ensures ok == (0 <= from)
      ensures Delete(old(Value()), from, to) == if ok then Some(Value()) else None
      ensures !ok ==> Value() == old(Value())
    {
      ok := 0 <= from;
      if ok {
        text := text[..from] + text[to..];
        selFrom, selTo := MapPos(selFrom, from, to), MapPos(selTo, from, to);
      }
    }

    method InsertContent(s: string)
      requires Valid()
      modifies this
      ensures Valid()
      ensures Value() == Insert(old(Value()), s)
    {
      if s != [] {
        text := text[..selFrom] + s + text[selTo..];
        selFrom := selFrom + |s|;
        selTo := selFrom;
      }
    }

    method SetTextSelection(from: int, to: int)
      requires Valid() && from <= to
      modifies this
      ensures Valid()
      ensures Value() == Select(old(Value()), from, to)
    {
      selFrom, selTo := Clamp(from, |text|), Clamp(to, |text|);
    }

    /** `commands.setContent(content)`: the whole document is replaced; the caret is
        put at the end of the new text. */
    method SetContent(content: string)
      modifies this
      ensures Valid()
      ensures Value() == Doc(content, |content|, |content|)
    {
      text, selFrom, selTo := content, |content|, |content|;
    }
  }
}
